=== FILE: README.md ===
# Video engagement model

A Dafny model of the video service of a video-hosting backend. The service is
written in Java with Spring. It keeps video documents (metadata, a like
counter, a dislike counter, a view counter and a comment list). Each user
document holds a set of liked video ids, a set of disliked video ids and a
watch history.

The interesting part is the per-user like/dislike state machine. A user is in
one of three states towards a video: neither, liked or disliked. `likeVideo`
and `disLikeVideo` move between these states and adjust the two counters. The
other service methods are small operations on the same video document:
recording a view, editing metadata, uploading a thumbnail, and adding or
listing comments.

Modules:

- `Model` (`model.dfy`): the records. Nullable Java fields are `Option`s. A
  failure is a `Result` error instead of an exception.
- `Engagement` (`engagement.dfy`): the like and dislike transitions on one
  (video, user) pair. It also holds the transition tables they follow, and
  lemmas about single votes and about any sequence of votes.
- `VideoService` (`video_service.dfy`): one pure function per service method.
  Each takes the catalog of video documents (a map from id to document), and
  where the method uses them, the current user's record and the object store.
  Each returns the successor state and the reply.
- `Platform` (`platform.dfy`): all users at once. A request sequence is driven
  over the catalog, the user directory and the object store. The invariant
  `Counted` says four things:
  - no user has a video in both sets;
  - every set names only stored videos;
  - each like or dislike counter equals the number of users whose matching
    set holds the video;
  - no view count is negative.

  Every request keeps `Counted`, so any request sequence keeps it, and none
  of the like, dislike and view counters goes below zero. Independently of
  `Counted`, no request sequence removes a video or lowers its view count.

Collaborators outside the model are replaced as follows:

- The object store is a sequence of written URLs. The URL it returns for an
  upload is a parameter.
- The database's assignment of a new id is a parameter.
- The current user, which the user service resolves from the caller's token,
  is passed in as a `User` value.
- The user service's queries `ifLikedVideo` and `ifDislikedVideos` are set
  membership. Its add and remove operations are set insertion and removal.
  Adding to the history appends to a sequence.
- The video document's `incrementLikes`, `decrementLikes` and the
  corresponding dislike and view operations add or subtract one.

Behaviour of the code that the model keeps as written:

- `addComment` stores whatever text it is given, including the empty string.
- A missing video raises `IllegalArgumentException` ("Cannot find video by ID",
  VideoService.java line 79). The model calls this error `VideoNotFound`.
- The service raises no other error of its own.
- A new video document starts with zero counters and an empty comment list.
  The `Video` class that sets these initial values is not part of this model;
  `Model.NewVideo` assumes them.

## Model

| member | source | states |
|---|---|---|
| Engagement.Like | backend/src/main/java/com/programming/pankaj/youtubeclone/service/VideoService.java:104-132 | Each counter changes by exactly the change in membership of its set. When the video is not in both sets, the result follows the like table: neither→liked, liked→neither, disliked→liked. The liked flag flips, disjoint sets stay disjoint, the history and all other video fields are unchanged, and the sets change only at this video. |
| Engagement.DisLike | backend/src/main/java/com/programming/pankaj/youtubeclone/service/VideoService.java:135-162 | The mirror image of `Like`: counters track set membership, the dislike table is followed (neither→disliked, disliked→neither, liked→disliked), the disliked flag flips, and nothing else changes. |
| Engagement.LikeFromNeither | backend/src/main/java/com/programming/pankaj/youtubeclone/service/VideoService.java:121-125 | Liking from "neither" adds the id to the liked set and 1 to `likes`, and leaves the disliked set and `disLikes` unchanged. |
| Engagement.DisLikeFromNeither | backend/src/main/java/com/programming/pankaj/youtubeclone/service/VideoService.java:151-155 | Disliking from "neither" adds the id to the disliked set and 1 to `disLikes`, and leaves the liked side unchanged. |
| Engagement.LikeFromDisliked | backend/src/main/java/com/programming/pankaj/youtubeclone/service/VideoService.java:113-120 | Liking a disliked video moves the id from the disliked set to the liked set, with `disLikes` down 1 and `likes` up 1. |
| Engagement.DisLikeFromLiked | backend/src/main/java/com/programming/pankaj/youtubeclone/service/VideoService.java:144-150 | Disliking a liked video moves the id from the liked set to the disliked set, with `likes` down 1 and `disLikes` up 1. |
| Engagement.LikeTwiceRestores | backend/src/main/java/com/programming/pankaj/youtubeclone/service/VideoService.java:109-125 | From "neither" or "liked", two likes in a row restore the video document and the user record exactly. |
| Engagement.DisLikeTwiceRestores | backend/src/main/java/com/programming/pankaj/youtubeclone/service/VideoService.java:140-155 | From "neither" or "disliked", two dislikes in a row restore both records exactly. |
| Engagement.ReplayKeepsExclusive | backend/src/main/java/com/programming/pankaj/youtubeclone/service/VideoService.java:109-155 | Suppose the video is not in both sets to begin with. Then after any sequence of likes and dislikes it is still not in both. |
| Engagement.ReplayCountersTrackVoteSets | backend/src/main/java/com/programming/pankaj/youtubeclone/service/VideoService.java:109-155 | Over any sequence of likes and dislikes, each counter moves by exactly the net change in membership of its set. |
| Engagement.ReplayKeepsCountersNonNegative | backend/src/main/java/com/programming/pankaj/youtubeclone/service/VideoService.java:109-155 | Suppose each counter is at least the user's own membership of its set. Then after any sequence of votes it still is, so it is never negative. |
| VideoService.MapToVideoDto | backend/src/main/java/com/programming/pankaj/youtubeclone/service/VideoService.java:165-178 | The reply names the document's id and reports its URL and its like, dislike and view counters. Its metadata is the document's own: editing the document with its own reply changes nothing. |
| VideoService.MapToCommentDto | backend/src/main/java/com/programming/pankaj/youtubeclone/service/VideoService.java:210-215 | The transfer object keeps text and author, so the comment `addComment` would build from it is the original comment. |
| VideoService.ToComment | backend/src/main/java/com/programming/pankaj/youtubeclone/service/VideoService.java:186-188 | The comment built from a request carries the request's text and the request's author. |
| Model.NewVideo | backend/src/main/java/com/programming/pankaj/youtubeclone/service/VideoService.java:29-30 | A new document holds only its URL: all metadata absent, the three counters zero, no comments. The zero counters and empty list are assumed from the `Video` class. |
| VideoService.GetVideoById | backend/src/main/java/com/programming/pankaj/youtubeclone/service/VideoService.java:77-80 | The lookup succeeds exactly when the id is stored and then returns that document. Otherwise it fails with an error naming the id. |
| VideoService.UploadVideo | backend/src/main/java/com/programming/pankaj/youtubeclone/service/VideoService.java:24-37 | Adds exactly one document under the new id, with the stored URL, every metadata field absent, zero counters and no comments. No existing document changes. The URL is appended to the object store, and the reply carries the id and the URL. |
| VideoService.EditVideo | backend/src/main/java/com/programming/pankaj/youtubeclone/service/VideoService.java:40-56 | Fails exactly when the id is missing. On success it sets title, description, tags, thumbnail URL and status to the request's values. The video URL, the three counters, the comments and every other document are unchanged, and the reply is the request itself. |
| VideoService.UploadThumbnail | backend/src/main/java/com/programming/pankaj/youtubeclone/service/VideoService.java:59-74 | Fails exactly when the id is missing, and a failure carries no store write. On success it appends one object to the store and changes only the thumbnail URL of that one document. |
| VideoService.GetVideoDetails | backend/src/main/java/com/programming/pankaj/youtubeclone/service/VideoService.java:83-101 | Fails exactly when the id is missing. On success `viewCount` rises by exactly 1 and every other field of the document is unchanged. The id is appended to the history, both vote sets are unchanged, and the reply describes the updated document. |
| VideoService.LikeVideo | backend/src/main/java/com/programming/pankaj/youtubeclone/service/VideoService.java:104-132 | Fails exactly when the id is missing. On success only that document changes, the document and the user are as `Engagement.Like` makes them, and the reply describes the saved document. |
| VideoService.DisLikeVideo | backend/src/main/java/com/programming/pankaj/youtubeclone/service/VideoService.java:135-162 | As `LikeVideo`, with the `Engagement.DisLike` transition. |
| VideoService.AddComment | backend/src/main/java/com/programming/pankaj/youtubeclone/service/VideoService.java:181-195 | Fails exactly when the id is missing. On success it appends exactly one comment with the request's text and author after the existing, unchanged comments. Nothing else in the catalog changes. |
| VideoService.GetAllComments | backend/src/main/java/com/programming/pankaj/youtubeclone/service/VideoService.java:198-207 | Fails exactly when the id is missing. On success it returns one transfer object per comment, in list order, with text and author preserved. |
| VideoService.GetAllVideos | backend/src/main/java/com/programming/pankaj/youtubeclone/service/VideoService.java:218-221 | Describes every stored document, and describes nothing else. |
| VideoService.GetAllVideosOnePerDocument | backend/src/main/java/com/programming/pankaj/youtubeclone/service/VideoService.java:218-221 | The listing has exactly as many replies as there are stored documents. |
| VideoService.UploadThenListed | backend/src/main/java/com/programming/pankaj/youtubeclone/service/VideoService.java:24-37 | After an upload, the listing contains a reply with the new id, the uploaded URL and zero like, dislike and view counts. |
| VideoService.RepliesReportSavedDocument | backend/src/main/java/com/programming/pankaj/youtubeclone/service/VideoService.java:83-178 | The replies of a like, a dislike and a view all succeed on a stored video and report its id, its URL and the three counters as saved. |
| VideoService.CommentRoundTrip | backend/src/main/java/com/programming/pankaj/youtubeclone/service/VideoService.java:186-215 | Converting a comment to its transfer object and back gives the same comment, and the same holds the other way round. |
| VideoService.AddThenGetComments | backend/src/main/java/com/programming/pankaj/youtubeclone/service/VideoService.java:181-207 | Adding a comment and then listing the comments gives the earlier list followed by the new comment. |
| VideoService.EditThenDetails | backend/src/main/java/com/programming/pankaj/youtubeclone/service/VideoService.java:40-101 | An edit followed by a details request reports the five edited fields as sent. The view count is one above its value before the edit. |
| Platform.Next | backend/src/main/java/com/programming/pankaj/youtubeclone/service/VideoService.java:24-195 | A caller outside the directory is refused with an error naming the caller. For a known caller, a request on a stored video (or an upload under a free id) succeeds, and a request on a missing video fails with an error naming the video. A success changes no other user's record and no other document. Only a view or a vote changes the caller's record. The store grows by the video URL on an upload and by the thumbnail URL on a thumbnail upload, and is unchanged otherwise. The target ends up as the matching service method leaves it: a new blank document; the old document with the thumbnail set; the old document overwritten by the edit; the old document with the comment appended; a like or dislike transition of document and caller; or the old document with one more view, and the caller's history extended by the id with both vote sets unchanged. |
| Platform.VoteKeepsCounted | backend/src/main/java/com/programming/pankaj/youtubeclone/service/VideoService.java:104-162 | One like or dislike keeps the consistency invariant: sets stay disjoint, sets name only stored videos, and each counter equals the number of holders of its set. |
| Platform.NextNeverLowersViews | backend/src/main/java/com/programming/pankaj/youtubeclone/service/VideoService.java:24-195 | No request, successful or failed, removes a video or lowers a view count, and a video a request creates starts at zero views. Only the view at line 99 increments the count. |
| Platform.RunNeverLowersViews | backend/src/main/java/com/programming/pankaj/youtubeclone/service/VideoService.java:83-100 | From any state, after any sequence of requests by any users, every stored video is still stored and its view count is at least what it was. |
| Platform.NextKeepsCounted | backend/src/main/java/com/programming/pankaj/youtubeclone/service/VideoService.java:24-195 | Every state-changing request, successful or failed, keeps the consistency invariant. |
| Platform.RunKeepsCounted | backend/src/main/java/com/programming/pankaj/youtubeclone/service/VideoService.java:24-195 | Any sequence of requests by any users keeps the consistency invariant. |
| Platform.CountedCoversVotes | backend/src/main/java/com/programming/pankaj/youtubeclone/service/VideoService.java:109-112 | Under the invariant, a counter is at least 1 whenever some user's set holds the video. So the decrement in a membership-guarded branch never goes below zero. |
| Platform.RunKeepsVotesExclusiveAndCountersNonNegative | backend/src/main/java/com/programming/pankaj/youtubeclone/service/VideoService.java:83-162 | Start from a consistent state. After any sequence of requests, no user has a video in both sets and no like, dislike or view counter is negative. |
| Platform.MissingVideoChangesNothing | backend/src/main/java/com/programming/pankaj/youtubeclone/service/VideoService.java:77-80 | A request naming a missing video fails and leaves catalog, users and object store exactly as they were. |
| Platform.ThreeViews | backend/src/main/java/com/programming/pankaj/youtubeclone/service/VideoService.java:83-101 | Two views by one user and one by another raise the view count by 3. The first user's history gains the id twice and the second user's once. |

## Left out

- Object storage (`S3Service`): the upload itself, ACLs, URL generation and random keys. The returned URL is a parameter, and the store is the sequence of URLs written.
- Token validation, CORS and session policy (`SecurityConfig`): framework configuration over an external library. `Platform` refuses a caller outside its user directory with `UnknownUser` in place of authentication.
- HTTP routing and status codes (`VideoController`): it only delegates to the service.
- The user repository and the user service: they are not part of this model. Resolving the current user, and creating a user lazily on first contact, are left out. `Platform` works over a fixed directory.
- The assignment of new ids by the database: the id is a parameter. `Platform` refuses an upload under an id that is already taken, because the database never assigns such an id.
- The order in which documents are saved, and partial failure of a save: each method's successor state is produced as a whole or not at all.
- Concurrent read-modify-write races between users: the source has no locking, and the model is single-threaded.
- Counters are unbounded integers. The source keeps them in `AtomicInteger`s, which wrap at 2^31 - 1; that wrap-around is not modelled.
- Counters are signed. When a counter is below the user's own membership of its set, the source's like or dislike can decrement it below zero, and the model does the same. The non-negativity results assume that each counter covers the user's own vote (`Engagement.ReplayKeepsCountersNonNegative`), or the all-users consistency invariant (`Platform`).
- VideoService.GetAllVideos: returns a set, because the order in which the database lists documents is not part of this model.
- The `VideoStatus` enumeration is not part of this model. A status is its constant's name.
- Null identifiers: every id is a string, and a null id passed to the repository is not modelled.

=== FILE: engagement.dfy ===
/**
 The like/dislike state machine of one user and one video.

 A user's relationship to a video is read off two sets, the liked and the
 disliked video ids; the video carries one counter per set. `Like` and
 `DisLike` are the three-branch transitions of `likeVideo` and
 `disLikeVideo`. Their contracts relate each counter's change to the change
 in membership of the matching set, and, while the two sets do not both
 hold the video, follow the transition tables `AfterLike` and `AfterDisLike`.
 */
module Engagement {
  import opened Model

  /** The two kinds of vote, each with its own set on the user and counter on the video. */
  datatype Side = LikeSide | DisLikeSide

  function VoteSet(u: User, side: Side): set<VideoId> {
    match side
    case LikeSide => u.likedVideos
    case DisLikeSide => u.disLikedVideos
  }

  function Counter(v: Video, side: Side): int {
    match side
    case LikeSide => v.likes
    case DisLikeSide => v.disLikes
  }

  function Indicator(b: bool): int {
    if b then 1 else 0
  }

  /** The relationship as the three-state variant; meaningful while `Exclusive` holds. */
  datatype Reaction = Neither | Liked | Disliked

  function ReactionOf(u: User, id: VideoId): Reaction {
    if id in u.likedVideos then Liked
    else if id in u.disLikedVideos then Disliked
    else Neither
  }

  /** The video is not in both sets of the user. */
  predicate Exclusive(u: User, id: VideoId) {
    !(id in u.likedVideos && id in u.disLikedVideos)
  }

  /** No video is in both sets of the user. */
  predicate Disjoint(u: User) {
    u.likedVideos !! u.disLikedVideos
  }

  /** Transition table of a like: it toggles a like and replaces a dislike. */
  function AfterLike(r: Reaction): Reaction {
    match r
    case Neither => Liked
    case Liked => Neither
    case Disliked => Liked
  }

  /** Transition table of a dislike: the mirror image of `AfterLike`. */
  function AfterDisLike(r: Reaction): Reaction {
    match r
    case Neither => Disliked
    case Liked => Disliked
    case Disliked => Neither
  }

  /** The two aggregates a vote touches. */
  datatype Engaged = Engaged(video: Video, user: User)

  /** Everything about the video but its like and dislike counters. */
  predicate SameButCounters(v: Video, w: Video) {
    v.(likes := w.likes, disLikes := w.disLikes) == w
  }

  /** The user's sets agree on every video but `id`, and the history is untouched. */
  predicate SameButVote(u: User, w: User, id: VideoId) {
    && u.likedVideos - {id} == w.likedVideos - {id}
    && u.disLikedVideos - {id} == w.disLikedVideos - {id}
    && u.videoHistory == w.videoHistory
  }

  /** Each counter moves by exactly the change in membership of its set. */
  predicate CountersTrackVoteSets(before: Engaged, after: Engaged, id: VideoId) {
    forall side: Side ::
      Counter(after.video, side) - Counter(before.video, side)
      == Indicator(id in VoteSet(after.user, side)) - Indicator(id in VoteSet(before.user, side))
  }

  /** `likeVideo`: the current user likes video `id`, whose document is `v`. */
  function Like(v: Video, u: User, id: VideoId): (r: Engaged)
    ensures CountersTrackVoteSets(Engaged(v, u), r, id)
    ensures Exclusive(u, id) ==> Exclusive(r.user, id) && ReactionOf(r.user, id) == AfterLike(ReactionOf(u, id))
    ensures id in r.user.likedVideos <==> id !in u.likedVideos
    ensures Disjoint(u) ==> Disjoint(r.user)
    ensures SameButCounters(r.video, v) && SameButVote(r.user, u, id)
  {
    if id in u.likedVideos then
      Engaged(v.(likes := v.likes - 1),
              u.(likedVideos := u.likedVideos - {id}))
    else if id in u.disLikedVideos then
      Engaged(v.(disLikes := v.disLikes - 1, likes := v.likes + 1),
              u.(disLikedVideos := u.disLikedVideos - {id}, likedVideos := u.likedVideos + {id}))
    else
      Engaged(v.(likes := v.likes + 1),
              u.(likedVideos := u.likedVideos + {id}))
  }

  /** `disLikeVideo`: the current user dislikes video `id`, whose document is `v`. */
  function DisLike(v: Video, u: User, id: VideoId): (r: Engaged)
    ensures CountersTrackVoteSets(Engaged(v, u), r, id)
    ensures Exclusive(u, id) ==> Exclusive(r.user, id) && ReactionOf(r.user, id) == AfterDisLike(ReactionOf(u, id))
    ensures id in r.user.disLikedVideos <==> id !in u.disLikedVideos
    ensures Disjoint(u) ==> Disjoint(r.user)
    ensures SameButCounters(r.video, v) && SameButVote(r.user, u, id)
  {
    if id in u.disLikedVideos then
      Engaged(v.(disLikes := v.disLikes - 1),
              u.(disLikedVideos := u.disLikedVideos - {id}))
    else if id in u.likedVideos then
      Engaged(v.(likes := v.likes - 1, disLikes := v.disLikes + 1),
              u.(likedVideos := u.likedVideos - {id}, disLikedVideos := u.disLikedVideos + {id}))
    else
      Engaged(v.(disLikes := v.disLikes + 1),
              u.(disLikedVideos := u.disLikedVideos + {id}))
  }

  /** One vote of either kind. */
  function Vote(e: Engaged, id: VideoId, side: Side): Engaged {
    match side
    case LikeSide => Like(e.video, e.user, id)
    case DisLikeSide => DisLike(e.video, e.user, id)
  }

  /** A sequence of votes by one user on one video, applied in order. */
  function Replay(e: Engaged, id: VideoId, votes: seq<Side>): Engaged
    decreases |votes|
  {
    if votes == [] then e else Replay(Vote(e, id, votes[0]), id, votes[1..])
  }

  /** Liking from "neither" adds the like and one to `likes`, and nothing else. */
  lemma LikeFromNeither(v: Video, u: User, id: VideoId)
    requires ReactionOf(u, id) == Neither
    ensures Like(v, u, id).user.likedVideos == u.likedVideos + {id}
    ensures Like(v, u, id).user.disLikedVideos == u.disLikedVideos
    ensures Like(v, u, id).video.likes == v.likes + 1
    ensures Like(v, u, id).video.disLikes == v.disLikes
  {
  }

  /** Disliking from "neither" adds the dislike and one to `disLikes`, and nothing else. */
  lemma DisLikeFromNeither(v: Video, u: User, id: VideoId)
    requires ReactionOf(u, id) == Neither
    ensures DisLike(v, u, id).user.disLikedVideos == u.disLikedVideos + {id}
    ensures DisLike(v, u, id).user.likedVideos == u.likedVideos
    ensures DisLike(v, u, id).video.disLikes == v.disLikes + 1
    ensures DisLike(v, u, id).video.likes == v.likes
  {
  }

  /**
   Liking a disliked video moves the vote across: `disLikes` down one, `likes`
   up one. `Exclusive` already follows from `Disliked`; it is written out to
   mirror `DisLikeFromLiked`, which needs it.
   */
  lemma LikeFromDisliked(v: Video, u: User, id: VideoId)
    requires Exclusive(u, id) && ReactionOf(u, id) == Disliked
    ensures Like(v, u, id).user.likedVideos == u.likedVideos + {id}
    ensures Like(v, u, id).user.disLikedVideos == u.disLikedVideos - {id}
    ensures Like(v, u, id).video.likes == v.likes + 1
    ensures Like(v, u, id).video.disLikes == v.disLikes - 1
  {
  }

  /** Disliking a liked video is the mirror image of `LikeFromDisliked`. */
  lemma DisLikeFromLiked(v: Video, u: User, id: VideoId)
    requires Exclusive(u, id) && ReactionOf(u, id) == Liked
    ensures DisLike(v, u, id).user.disLikedVideos == u.disLikedVideos + {id}
    ensures DisLike(v, u, id).user.likedVideos == u.likedVideos - {id}
    ensures DisLike(v, u, id).video.disLikes == v.disLikes + 1
    ensures DisLike(v, u, id).video.likes == v.likes - 1
  {
  }

  /** From "neither" or "liked", a second like undoes the first: both sets and both counters are restored. */
  lemma LikeTwiceRestores(v: Video, u: User, id: VideoId)
    requires Exclusive(u, id) && ReactionOf(u, id) != Disliked
    ensures var once := Like(v, u, id); Like(once.video, once.user, id) == Engaged(v, u)
  {
  }

  /**
   From "neither" or "disliked", a second dislike undoes the first.
   `Exclusive` already follows from `!= Liked`; it is written out to mirror
   `LikeTwiceRestores`, which needs it.
   */
  lemma DisLikeTwiceRestores(v: Video, u: User, id: VideoId)
    requires Exclusive(u, id) && ReactionOf(u, id) != Liked
    ensures var once := DisLike(v, u, id); DisLike(once.video, once.user, id) == Engaged(v, u)
  {
  }

  /** No sequence of votes puts the video into both sets when it was not in both to begin with. */
  lemma {:induction false} ReplayKeepsExclusive(e: Engaged, id: VideoId, votes: seq<Side>)
    requires Exclusive(e.user, id)
    ensures Exclusive(Replay(e, id, votes).user, id)
    decreases |votes|
  {
    if votes != [] {
      ReplayKeepsExclusive(Vote(e, id, votes[0]), id, votes[1..]);
    }
  }

  /** Over any sequence of votes, each counter moves by the net change in membership of its set. */
  lemma {:induction false} ReplayCountersTrackVoteSets(e: Engaged, id: VideoId, votes: seq<Side>)
    ensures CountersTrackVoteSets(e, Replay(e, id, votes), id)
    decreases |votes|
  {
    if votes != [] {
      var next := Vote(e, id, votes[0]);
      ReplayCountersTrackVoteSets(next, id, votes[1..]);
      assert CountersTrackVoteSets(e, next, id);
    }
  }

  /** Counters that cover the user's own vote stay non-negative over any sequence of votes. */
  lemma ReplayKeepsCountersNonNegative(e: Engaged, id: VideoId, votes: seq<Side>)
    requires forall side: Side :: Counter(e.video, side) >= Indicator(id in VoteSet(e.user, side))
    ensures forall side: Side :: Counter(Replay(e, id, votes).video, side) >= Indicator(id in VoteSet(Replay(e, id, votes).user, side)) >= 0
  {
    ReplayCountersTrackVoteSets(e, id, votes);
  }
}

=== FILE: model.dfy ===
/**
 Records of the video-hosting backend: videos with their counters and
 comments, the per-user engagement record, and the transfer objects the
 video service hands back to its callers.

 Fields that the Java records leave `null` until someone sets them are
 `Option`s here; counters are unbounded integers.
 */
module Model {

  type VideoId = string
  type UserId = string
  type Url = string

  /** Name of a video status constant; the enumeration itself is not part of this model. */
  type VideoStatus = string

  datatype Option<+T> = None | Some(value: T)

  /** A comment: its text and the id of the user who wrote it. */
  datatype Comment = Comment(text: string, authorId: UserId)

  /** A stored video document. Its id is the key under which the catalog holds it. */
  datatype Video = Video(
    title: Option<string>,
    description: Option<string>,
    tags: Option<set<string>>,
    videoUrl: Url,
    thumbnailUrl: Option<Url>,
    videoStatus: Option<VideoStatus>,
    likes: int,
    disLikes: int,
    viewCount: int,
    commentList: seq<Comment>)

  /** The engagement part of a user document: two sets of video ids and a watch history. */
  datatype User = User(
    likedVideos: set<VideoId>,
    disLikedVideos: set<VideoId>,
    videoHistory: seq<VideoId>)

  /** The video transfer object, both what callers send to edit and what they get back. */
  datatype VideoDto = VideoDto(
    id: VideoId,
    title: Option<string>,
    description: Option<string>,
    tags: Option<set<string>>,
    videoUrl: Url,
    thumbnailUrl: Option<Url>,
    videoStatus: Option<VideoStatus>,
    likeCount: int,
    dislikeCount: int,
    viewCount: int)

  datatype CommentDto = CommentDto(commentText: string, authorId: UserId)

  datatype UploadVideoResponse = UploadVideoResponse(videoId: VideoId, videoUrl: Url)

  /** Why a request fails. */
  datatype Error =
    | VideoNotFound(videoId: VideoId)     // "Cannot find video by ID"
    | UnknownUser(userId: UserId)         // the caller could not be resolved to a user
    | DuplicateVideoId(videoId: VideoId)  // an upload under an id that is already taken

  datatype Result<+T> = Ok(value: T) | Err(error: Error)

  /**
   The document an upload creates: only the URL is set, the counters start
   at zero and the comment list is empty.
   */
  function NewVideo(videoUrl: Url): (r: Video)
    ensures r.videoUrl == videoUrl
    ensures r.title == r.description == r.thumbnailUrl == None && r.tags == None && r.videoStatus == None
    ensures r.likes == r.disLikes == r.viewCount == 0 && r.commentList == []
  {
    Video(None, None, None, videoUrl, None, None, 0, 0, 0, [])
  }
}

=== FILE: platform.dfy ===
/**
 The service seen from all its users at once: a catalog, a directory of
 users and the object store, driven by a sequence of requests, each made
 by one user.

 The invariant `Counted` is the consistency promise between the users'
 sets and the counters: no user has a video in both sets, every set names
 stored videos only, each video's like and dislike counters equal the
 number of users whose liked and disliked sets hold it, and no view count
 is negative. Every request keeps it, so any sequence of requests from a
 state that has it keeps it, and none of the three counters goes below
 zero. Separately, no request lowers a view count.
 */
module Platform {
  import opened Model
  import opened Engagement
  import VideoService

  datatype State = State(videos: VideoService.Catalog, users: map<UserId, User>, store: VideoService.Store)

  /** The requests that change state, one per mutating service method. */
  datatype Request =
    | UploadVideo(newId: VideoId, videoUrl: Url)
    | UploadThumbnail(videoId: VideoId, thumbnailUrl: Url)
    | EditVideo(dto: VideoDto)
    | GetVideoDetails(videoId: VideoId)
    | LikeVideo(videoId: VideoId)
    | DisLikeVideo(videoId: VideoId)
    | AddComment(videoId: VideoId, comment: CommentDto)
  {
    /** The video a request resolves before anything else; an upload names the id it creates. */
    function Target(): VideoId {
      match this
      case UploadVideo(newId, _) => newId
      case UploadThumbnail(videoId, _) => videoId
      case EditVideo(dto) => dto.id
      case GetVideoDetails(videoId) => videoId
      case LikeVideo(videoId) => videoId
      case DisLikeVideo(videoId) => videoId
      case AddComment(videoId, _) => videoId
    }
  }

  datatype Call = Call(who: UserId, req: Request)

  /**
   One request by user `who`. A caller outside the directory is refused; an
   upload under an id already taken stands for an assignment the database
   never makes and is refused too.
   */
  function Next(s: State, who: UserId, req: Request): (r: Result<State>)
    ensures who !in s.users ==> r == Err(UnknownUser(who))
    ensures who in s.users && !req.UploadVideo? && req.Target() !in s.videos ==> r == Err(VideoNotFound(req.Target()))
    ensures r.Ok? ==> r.value.videos.Keys == s.videos.Keys + {req.Target()}
    ensures r.Ok? ==> r.value.users.Keys == s.users.Keys
    ensures r.Ok? ==> forall w :: w in s.users && w != who ==> r.value.users[w] == s.users[w]
    ensures r.Ok? ==> forall id :: id in s.videos && id != req.Target() ==> r.value.videos[id] == s.videos[id]
    ensures who in s.users && (if req.UploadVideo? then req.Target() !in s.videos else req.Target() in s.videos) ==> r.Ok?
    ensures r.Ok? ==> who in s.users && (req.UploadVideo? <==> req.Target() !in s.videos)
    ensures r.Ok? && !req.UploadVideo? && !req.UploadThumbnail? ==> r.value.store == s.store
    ensures r.Ok? && !(req.GetVideoDetails? || req.LikeVideo? || req.DisLikeVideo?) ==> r.value.users == s.users
    ensures r.Ok? && req.UploadVideo? ==>
      r.value.videos[req.newId] == NewVideo(req.videoUrl) && r.value.store == s.store + [req.videoUrl]
    ensures r.Ok? && req.UploadThumbnail? ==>
      && r.value.videos[req.videoId] == s.videos[req.videoId].(thumbnailUrl := Some(req.thumbnailUrl))
      && r.value.store == s.store + [req.thumbnailUrl]
    ensures r.Ok? && req.EditVideo? ==>
      r.value.videos[req.dto.id] == VideoService.Overwrite(s.videos[req.dto.id], req.dto)
    ensures r.Ok? && req.AddComment? ==>
      r.value.videos[req.videoId] == s.videos[req.videoId].(commentList := s.videos[req.videoId].commentList + [VideoService.ToComment(req.comment)])
    ensures r.Ok? && req.LikeVideo? ==>
      Engaged(r.value.videos[req.videoId], r.value.users[who]) == Like(s.videos[req.videoId], s.users[who], req.videoId)
    ensures r.Ok? && req.DisLikeVideo? ==>
      Engaged(r.value.videos[req.videoId], r.value.users[who]) == DisLike(s.videos[req.videoId], s.users[who], req.videoId)
    ensures r.Ok? && req.GetVideoDetails? ==>
      && r.value.videos[req.videoId] == s.videos[req.videoId].(viewCount := s.videos[req.videoId].viewCount + 1)
      && r.value.users[who] == s.users[who].(videoHistory := s.users[who].videoHistory + [req.videoId])
  {
    if who !in s.users then Err(UnknownUser(who))
    else
      var u := s.users[who];
      match req
      case UploadVideo(newId, videoUrl) =>
        if newId in s.videos then Err(DuplicateVideoId(newId))
        else
          var up := VideoService.UploadVideo(s.videos, s.store, newId, videoUrl);
          Ok(s.(videos := up.videos, store := up.store))
      case UploadThumbnail(videoId, thumbnailUrl) =>
        (match VideoService.UploadThumbnail(s.videos, s.store, videoId, thumbnailUrl)
         case Err(e) => Err(e)
         case Ok(t) => Ok(s.(videos := t.videos, store := t.store)))
      case EditVideo(dto) =>
        (match VideoService.EditVideo(s.videos, dto)
         case Err(e) => Err(e)
         case Ok(ed) => Ok(s.(videos := ed.videos)))
      case GetVideoDetails(videoId) =>
        (match VideoService.GetVideoDetails(s.videos, u, videoId)
         case Err(e) => Err(e)
         case Ok(a) => Ok(s.(videos := a.videos, users := s.users[who := a.user])))
      case LikeVideo(videoId) =>
        (match VideoService.LikeVideo(s.videos, u, videoId)
         case Err(e) => Err(e)
         case Ok(a) => Ok(s.(videos := a.videos, users := s.users[who := a.user])))
      case DisLikeVideo(videoId) =>
        (match VideoService.DisLikeVideo(s.videos, u, videoId)
         case Err(e) => Err(e)
         case Ok(a) => Ok(s.(videos := a.videos, users := s.users[who := a.user])))
      case AddComment(videoId, comment) =>
        (match VideoService.AddComment(s.videos, videoId, comment)
         case Err(e) => Err(e)
         case Ok(videos') => Ok(s.(videos := videos')))
  }

  /** The state after one call: a failed request leaves everything as it was. */
  function After(s: State, c: Call): State {
    match Next(s, c.who, c.req)
    case Ok(s') => s'
    case Err(_) => s
  }

  /** The state after a sequence of calls, in order. */
  function Run(s: State, calls: seq<Call>): State
    decreases |calls|
  {
    if calls == [] then s else Run(After(s, calls[0]), calls[1..])
  }

  /** The users whose set on `side` holds video `id`. */
  function Holders(users: map<UserId, User>, id: VideoId, side: Side): set<UserId> {
    set w | w in users && id in VoteSet(users[w], side)
  }

  /** The consistency invariant between the users' sets and the videos' counters. */
  predicate Counted(s: State) {
    && (forall w :: w in s.users ==> Disjoint(s.users[w]))
    && (forall w, side: Side :: w in s.users ==> VoteSet(s.users[w], side) <= s.videos.Keys)
    && (forall id, side: Side :: id in s.videos ==> Counter(s.videos[id], side) == |Holders(s.users, id, side)|)
    && (forall id :: id in s.videos ==> s.videos[id].viewCount >= 0)
  }

  /** Replacing one user's record moves each holder count by that user's change of membership. */
  lemma HoldersAfterUpdate(users: map<UserId, User>, who: UserId, u': User, id: VideoId, side: Side)
    requires who in users
    ensures |Holders(users[who := u'], id, side)|
            == |Holders(users, id, side)| - Indicator(id in VoteSet(users[who], side)) + Indicator(id in VoteSet(u', side))
  {
    var before := Holders(users, id, side);
    var after := Holders(users[who := u'], id, side);
    var rest := before - {who};
    assert after - {who} == rest;
    if id in VoteSet(u', side) {
      assert after == rest + {who};
    } else {
      assert after == rest;
    }
    if id in VoteSet(users[who], side) {
      assert before == rest + {who};
    } else {
      assert before == rest;
    }
  }

  /**
   Replacing one user's record, adjusting the vote counters by exactly that
   user's change of membership and lowering no view count keeps the invariant.
   */
  lemma UserUpdateKeepsCounted(s: State, who: UserId, u': User, s': State)
    requires Counted(s) && who in s.users
    requires s'.users == s.users[who := u'] && s'.videos.Keys == s.videos.Keys
    requires Disjoint(u') && VoteSet(u', LikeSide) <= s.videos.Keys && VoteSet(u', DisLikeSide) <= s.videos.Keys
    requires forall id, side: Side :: id in s.videos ==>
               Counter(s'.videos[id], side) - Counter(s.videos[id], side)
               == Indicator(id in VoteSet(u', side)) - Indicator(id in VoteSet(s.users[who], side))
    requires forall id :: id in s.videos ==> s'.videos[id].viewCount >= s.videos[id].viewCount
    ensures Counted(s')
  {
    forall w, side: Side | w in s'.users
      ensures VoteSet(s'.users[w], side) <= s'.videos.Keys
    {
      if w != who {
        assert VoteSet(s.users[w], side) <= s.videos.Keys;
      } else {
        match side
        case LikeSide =>
        case DisLikeSide =>
      }
    }
    forall id, side: Side | id in s'.videos
      ensures Counter(s'.videos[id], side) == |Holders(s'.users, id, side)|
    {
      HoldersAfterUpdate(s.users, who, u', id, side);
    }
  }

  /** A vote changes the voter's membership only for the voted video, and its counters by exactly that change. */
  lemma VoteKeepsCounted(s: State, who: UserId, id: VideoId, e: Engaged, s': State)
    requires Counted(s) && who in s.users && id in s.videos
    requires e == Like(s.videos[id], s.users[who], id) || e == DisLike(s.videos[id], s.users[who], id)
    requires s' == s.(videos := s.videos[id := e.video], users := s.users[who := e.user])
    ensures Counted(s')
  {
    var u := s.users[who];
    assert CountersTrackVoteSets(Engaged(s.videos[id], u), e, id);
    assert SameButVote(e.user, u, id);
    forall x, side: Side | x in s.videos
      ensures Counter(s'.videos[x], side) - Counter(s.videos[x], side)
              == Indicator(x in VoteSet(e.user, side)) - Indicator(x in VoteSet(u, side))
    {
      if x != id {
        assert x in VoteSet(e.user, side) - {id} <==> x in VoteSet(u, side) - {id} by {
          match side
          case LikeSide =>
          case DisLikeSide =>
        }
      }
    }
    forall side: Side ensures VoteSet(e.user, side) <= s.videos.Keys {
      assert VoteSet(u, side) <= s.videos.Keys;
      match side
      case LikeSide =>
        assert e.user.likedVideos <= (e.user.likedVideos - {id}) + {id};
      case DisLikeSide =>
        assert e.user.disLikedVideos <= (e.user.disLikedVideos - {id}) + {id};
    }
    UserUpdateKeepsCounted(s, who, e.user, s');
  }

  /** No request removes a video or lowers its view count; a new video starts at zero views. */
  lemma NextNeverLowersViews(s: State, who: UserId, req: Request)
    ensures var t := After(s, Call(who, req));
      && s.videos.Keys <= t.videos.Keys
      && (forall id :: id in s.videos ==> t.videos[id].viewCount >= s.videos[id].viewCount)
      && (forall id :: id in t.videos && id !in s.videos ==> t.videos[id].viewCount == 0)
  {
    var r := Next(s, who, req);
    if r.Ok? {
      forall id | id in s.videos ensures r.value.videos[id].viewCount >= s.videos[id].viewCount {
        if id == req.Target() {
          match req
          case UploadVideo(_, _) =>
          case UploadThumbnail(_, _) =>
          case EditVideo(dto) => assert r.value.videos[id] == VideoService.Overwrite(s.videos[id], dto);
          case GetVideoDetails(_) =>
          case LikeVideo(_) =>
          case DisLikeVideo(_) =>
          case AddComment(_, _) =>
        }
      }
    }
  }

  /** Every request keeps the invariant. */
  lemma NextKeepsCounted(s: State, who: UserId, req: Request)
    requires Counted(s)
    ensures Counted(After(s, Call(who, req)))
  {
    var r := Next(s, who, req);
    NextNeverLowersViews(s, who, req);
    if r.Ok? {
      var s' := r.value;
      var u := s.users[who];
      match req
      case UploadVideo(newId, videoUrl) =>
        forall id, side: Side | id in s'.videos
          ensures Counter(s'.videos[id], side) == |Holders(s'.users, id, side)|
        {
          if id == newId {
            forall w | w in s.users ensures id !in VoteSet(s.users[w], side) {
              assert VoteSet(s.users[w], side) <= s.videos.Keys;
            }
            assert Holders(s.users, id, side) == {};
          }
        }
        assert forall id :: id in s'.videos ==> s'.videos[id].viewCount >= 0;
      case UploadThumbnail(videoId, thumbnailUrl) =>
        UserUpdateKeepsCounted(s, who, u, s');
      case EditVideo(dto) =>
        UserUpdateKeepsCounted(s, who, u, s');
      case GetVideoDetails(videoId) =>
        var a := VideoService.GetVideoDetails(s.videos, u, videoId).value;
        assert s' == s.(videos := a.videos, users := s.users[who := a.user]);
        assert VoteSet(a.user, LikeSide) == VoteSet(u, LikeSide);
        assert VoteSet(a.user, DisLikeSide) == VoteSet(u, DisLikeSide);
        UserUpdateKeepsCounted(s, who, a.user, s');
      case LikeVideo(videoId) =>
        VoteKeepsCounted(s, who, videoId, Like(s.videos[videoId], u, videoId), s');
      case DisLikeVideo(videoId) =>
        VoteKeepsCounted(s, who, videoId, DisLike(s.videos[videoId], u, videoId), s');
      case AddComment(videoId, comment) =>
        UserUpdateKeepsCounted(s, who, u, s');
    }
  }

  /** Any sequence of requests keeps the invariant. */
  lemma {:induction false} RunKeepsCounted(s: State, calls: seq<Call>)
    requires Counted(s)
    ensures Counted(Run(s, calls))
    decreases |calls|
  {
    if calls != [] {
      NextKeepsCounted(s, calls[0].who, calls[0].req);
      RunKeepsCounted(After(s, calls[0]), calls[1..]);
    }
  }

  /** An empty catalog with users who have not voted yet satisfies the invariant. */
  lemma InitialCounted(users: map<UserId, User>, store: VideoService.Store)
    requires forall w :: w in users ==> users[w].likedVideos == {} && users[w].disLikedVideos == {}
    ensures Counted(State(map[], users, store))
  {
  }

  /** Under the invariant, a counter covers every user's own vote, so a retracted vote never drives it below zero. */
  lemma CountedCoversVotes(s: State, w: UserId, id: VideoId, side: Side)
    requires Counted(s) && w in s.users && id in s.videos
    ensures Counter(s.videos[id], side) >= Indicator(id in VoteSet(s.users[w], side)) >= 0
  {
    if id in VoteSet(s.users[w], side) {
      assert w in Holders(s.users, id, side);
    }
  }

  /** From a consistent start, after any sequence of requests no user has a video in both sets and no counter is negative. */
  lemma RunKeepsVotesExclusiveAndCountersNonNegative(s: State, calls: seq<Call>)
    requires Counted(s)
    ensures var t := Run(s, calls);
      && (forall w :: w in t.users ==> t.users[w].likedVideos !! t.users[w].disLikedVideos)
      && (forall id :: id in t.videos ==> t.videos[id].likes >= 0 && t.videos[id].disLikes >= 0 && t.videos[id].viewCount >= 0)
  {
    RunKeepsCounted(s, calls);
    var t := Run(s, calls);
    forall id | id in t.videos ensures t.videos[id].likes >= 0 && t.videos[id].disLikes >= 0 && t.videos[id].viewCount >= 0 {
      assert Counter(t.videos[id], LikeSide) == |Holders(t.users, id, LikeSide)|;
      assert Counter(t.videos[id], DisLikeSide) == |Holders(t.users, id, DisLikeSide)|;
    }
  }

  /** No sequence of requests removes a video or lowers its view count, whatever the starting state. */
  lemma {:induction false} RunNeverLowersViews(s: State, calls: seq<Call>, id: VideoId)
    requires id in s.videos
    ensures id in Run(s, calls).videos && Run(s, calls).videos[id].viewCount >= s.videos[id].viewCount
    decreases |calls|
  {
    if calls != [] {
      NextNeverLowersViews(s, calls[0].who, calls[0].req);
      RunNeverLowersViews(After(s, calls[0]), calls[1..], id);
    }
  }

  /** A request naming a missing video changes nothing: no document, no user record, no stored object. */
  lemma MissingVideoChangesNothing(s: State, who: UserId, req: Request)
    requires !req.UploadVideo? && req.Target() !in s.videos
    ensures Next(s, who, req).Err?
    ensures After(s, Call(who, req)) == s
  {
  }

  /**
   Three views of one video, two by one user and one by another: the view
   count rises by three, the first user's history gains the id twice and
   the second user's once.
   */
  lemma ThreeViews(s: State, a: UserId, b: UserId, id: VideoId)
    requires a in s.users && b in s.users && a != b && id in s.videos
    ensures var t := Run(s, [Call(a, GetVideoDetails(id)), Call(a, GetVideoDetails(id)), Call(b, GetVideoDetails(id))]);
      && id in t.videos && a in t.users && b in t.users
      && t.videos[id].viewCount == s.videos[id].viewCount + 3
      && t.users[a].videoHistory == s.users[a].videoHistory + [id, id]
      && t.users[b].videoHistory == s.users[b].videoHistory + [id]
  {
    var calls := [Call(a, GetVideoDetails(id)), Call(a, GetVideoDetails(id)), Call(b, GetVideoDetails(id))];
    var s1 := After(s, calls[0]);
    var s2 := After(s1, calls[1]);
    var s3 := After(s2, calls[2]);
    assert Run(s, calls) == Run(s1, calls[1..]);
    assert Run(s1, calls[1..]) == Run(s2, calls[2..]);
    assert Run(s2, calls[2..]) == Run(s3, []);
    assert s3.users[a].videoHistory == s.users[a].videoHistory + [id] + [id];
  }
}

=== FILE: video_service.dfy ===
/**
 The video service: each public method is a pure transition from the
 video catalog (and, where the method consults it, the current user's
 engagement record and the object store) to its successor state and reply.

 Every method that names an existing video resolves it first. A missing
 id fails with `VideoNotFound` and yields no successor state, so nothing
 is saved and nothing is written to the object store.
 */
module VideoService {
  import opened Model
  import Engagement

  /** The video documents, keyed by id. */
  type Catalog = map<VideoId, Video>

  /** Objects written to the object store, oldest first. */
  type Store = seq<Url>

  /** Successor state and reply of a method that touches a video and the current user. */
  datatype Applied = Applied(videos: Catalog, user: User, dto: VideoDto)

  /** Successor state and reply of `uploadVideo`. */
  datatype Uploaded = Uploaded(videos: Catalog, store: Store, response: UploadVideoResponse)

  /** Successor state and reply of `uploadThumbnail`. */
  datatype Thumbnailed = Thumbnailed(videos: Catalog, store: Store, thumbnailUrl: Url)

  /** Successor catalog and reply of `editVideo`. */
  datatype Edited = Edited(videos: Catalog, dto: VideoDto)

  /** Only the document under `id` may differ; no document appears or disappears. */
  predicate OnlyChanged(videos: Catalog, videos': Catalog, id: VideoId) {
    id in videos && id in videos' && videos == videos'[id := videos[id]] && videos' == videos[id := videos'[id]]
  }

  /** `getVideoById`: the document under `videoId`, or a failure naming the id. */
  function GetVideoById(videos: Catalog, videoId: VideoId): (r: Result<Video>)
    ensures r.Ok? <==> videoId in videos
    ensures r.Ok? ==> r.value == videos[videoId]
    ensures r.Err? ==> r.error == VideoNotFound(videoId)
  {
    if videoId in videos then Ok(videos[videoId]) else Err(VideoNotFound(videoId))
  }

  /** The five setter calls of `editVideo`: the request's metadata over the document's. */
  function Overwrite(v: Video, dto: VideoDto): Video {
    v.(title := dto.title, description := dto.description, tags := dto.tags,
       thumbnailUrl := dto.thumbnailUrl, videoStatus := dto.videoStatus)
  }

  /**
   `mapToVideoDto`: the reply describing document `v` stored under `id`. It
   names the document, reports its URL and its three counters, and carries
   the editable metadata, so editing the document with its own reply
   changes nothing.
   */
  function MapToVideoDto(id: VideoId, v: Video): (r: VideoDto)
    ensures r.id == id && r.videoUrl == v.videoUrl
    ensures r.likeCount == v.likes && r.dislikeCount == v.disLikes && r.viewCount == v.viewCount
    ensures Overwrite(v, r) == v
  {
    VideoDto(id, v.title, v.description, v.tags, v.videoUrl, v.thumbnailUrl, v.videoStatus,
             v.likes, v.disLikes, v.viewCount)
  }

  /** `mapToCommentDto`: the transfer object from which `addComment` would rebuild the same comment. */
  function MapToCommentDto(c: Comment): (r: CommentDto)
    ensures ToComment(r) == c
  {
    CommentDto(c.text, c.authorId)
  }

  /** The comment `addComment` builds from a request: the request's text, by the request's author. */
  function ToComment(dto: CommentDto): (r: Comment)
    ensures r.text == dto.commentText && r.authorId == dto.authorId
  {
    Comment(dto.commentText, dto.authorId)
  }

  /**
   `uploadVideo`: the object store has already returned `videoUrl` for the
   file, and the database assigns the fresh id `newId`.
   */
  function UploadVideo(videos: Catalog, store: Store, newId: VideoId, videoUrl: Url): (r: Uploaded)
    requires newId !in videos
    ensures r.videos.Keys == videos.Keys + {newId}
    ensures forall id :: id in videos ==> r.videos[id] == videos[id]
    ensures r.videos[newId] == NewVideo(videoUrl)
    ensures r.store == store + [videoUrl]
    ensures r.response == UploadVideoResponse(newId, videoUrl)
  {
    Uploaded(videos[newId := NewVideo(videoUrl)], store + [videoUrl], UploadVideoResponse(newId, videoUrl))
  }

  /**
   `editVideo`: overwrites title, description, tags, thumbnail URL and status
   of the document named by `dto.id` and answers with the request itself.
   */
  function EditVideo(videos: Catalog, dto: VideoDto): (r: Result<Edited>)
    ensures r.Err? <==> dto.id !in videos
    ensures r.Err? ==> r.error == VideoNotFound(dto.id)
    ensures r.Ok? ==> OnlyChanged(videos, r.value.videos, dto.id)
    ensures r.Ok? ==>
      var v, v' := videos[dto.id], r.value.videos[dto.id];
      && r.value.dto == dto
      && v'.title == dto.title && v'.description == dto.description && v'.tags == dto.tags
      && v'.thumbnailUrl == dto.thumbnailUrl && v'.videoStatus == dto.videoStatus
      && v'.videoUrl == v.videoUrl && v'.commentList == v.commentList
      && v'.likes == v.likes && v'.disLikes == v.disLikes && v'.viewCount == v.viewCount
  {
    match GetVideoById(videos, dto.id)
    case Err(e) => Err(e)
    case Ok(v) =>
      Ok(Edited(videos[dto.id := Overwrite(v, dto)], dto))
  }

  /**
   `uploadThumbnail`: the video is looked up before the file goes to the
   object store, which answers with `thumbnailUrl`.
   */
  function UploadThumbnail(videos: Catalog, store: Store, videoId: VideoId, thumbnailUrl: Url): (r: Result<Thumbnailed>)
    ensures r.Err? <==> videoId !in videos
    ensures r.Err? ==> r.error == VideoNotFound(videoId)
    ensures r.Ok? ==>
      && OnlyChanged(videos, r.value.videos, videoId)
      && r.value.videos[videoId] == videos[videoId].(thumbnailUrl := Some(thumbnailUrl))
      && r.value.store == store + [thumbnailUrl]
      && r.value.thumbnailUrl == thumbnailUrl
  {
    match GetVideoById(videos, videoId)
    case Err(e) => Err(e)
    case Ok(v) =>
      Ok(Thumbnailed(videos[videoId := v.(thumbnailUrl := Some(thumbnailUrl))], store + [thumbnailUrl], thumbnailUrl))
  }

  /**
   `getVideoDetails` with `increaseVideoCount`: one more view, the id
   appended to the current user's history, and the updated document as reply.
   */
  function GetVideoDetails(videos: Catalog, user: User, videoId: VideoId): (r: Result<Applied>)
    ensures r.Err? <==> videoId !in videos
    ensures r.Err? ==> r.error == VideoNotFound(videoId)
    ensures r.Ok? ==> OnlyChanged(videos, r.value.videos, videoId)
    ensures r.Ok? ==>
      var v, v' := videos[videoId], r.value.videos[videoId];
      && v'.viewCount == v.viewCount + 1
      && v'.(viewCount := v.viewCount) == v
      && r.value.user.videoHistory == user.videoHistory + [videoId]
      && r.value.user.likedVideos == user.likedVideos
      && r.value.user.disLikedVideos == user.disLikedVideos
      && r.value.dto == MapToVideoDto(videoId, v')
  {
    match GetVideoById(videos, videoId)
    case Err(e) => Err(e)
    case Ok(v) =>
      var v' := v.(viewCount := v.viewCount + 1);
      Ok(Applied(videos[videoId := v'], user.(videoHistory := user.videoHistory + [videoId]), MapToVideoDto(videoId, v')))
  }

  /** `likeVideo`: the transition `Engagement.Like` on the stored document, saved and reported. */
  function LikeVideo(videos: Catalog, user: User, videoId: VideoId): (r: Result<Applied>)
    ensures r.Err? <==> videoId !in videos
    ensures r.Err? ==> r.error == VideoNotFound(videoId)
    ensures r.Ok? ==>
      && OnlyChanged(videos, r.value.videos, videoId)
      && Engagement.Engaged(r.value.videos[videoId], r.value.user) == Engagement.Like(videos[videoId], user, videoId)
      && r.value.dto == MapToVideoDto(videoId, r.value.videos[videoId])
  {
    match GetVideoById(videos, videoId)
    case Err(e) => Err(e)
    case Ok(v) =>
      var e := Engagement.Like(v, user, videoId);
      Ok(Applied(videos[videoId := e.video], e.user, MapToVideoDto(videoId, e.video)))
  }

  /** `disLikeVideo`: the transition `Engagement.DisLike` on the stored document, saved and reported. */
  function DisLikeVideo(videos: Catalog, user: User, videoId: VideoId): (r: Result<Applied>)
    ensures r.Err? <==> videoId !in videos
    ensures r.Err? ==> r.error == VideoNotFound(videoId)
    ensures r.Ok? ==>
      && OnlyChanged(videos, r.value.videos, videoId)
      && Engagement.Engaged(r.value.videos[videoId], r.value.user) == Engagement.DisLike(videos[videoId], user, videoId)
      && r.value.dto == MapToVideoDto(videoId, r.value.videos[videoId])
  {
    match GetVideoById(videos, videoId)
    case Err(e) => Err(e)
    case Ok(v) =>
      var e := Engagement.DisLike(v, user, videoId);
      Ok(Applied(videos[videoId := e.video], e.user, MapToVideoDto(videoId, e.video)))
  }

  /** `addComment`: one comment with the request's text and author, at the end of the list. */
  function AddComment(videos: Catalog, videoId: VideoId, dto: CommentDto): (r: Result<Catalog>)
    ensures r.Err? <==> videoId !in videos
    ensures r.Err? ==> r.error == VideoNotFound(videoId)
    ensures r.Ok? ==> OnlyChanged(videos, r.value, videoId)
    ensures r.Ok? ==>
      var v, v' := videos[videoId], r.value[videoId];
      && |v'.commentList| == |v.commentList| + 1
      && v'.commentList[..|v.commentList|] == v.commentList
      && v'.commentList[|v.commentList|].text == dto.commentText
      && v'.commentList[|v.commentList|].authorId == dto.authorId
      && v'.(commentList := v.commentList) == v
  {
    match GetVideoById(videos, videoId)
    case Err(e) => Err(e)
    case Ok(v) =>
      Ok(videos[videoId := v.(commentList := v.commentList + [ToComment(dto)])])
  }

  /** `getAllComments`: the video's comments as transfer objects, in list order. */
  function GetAllComments(videos: Catalog, videoId: VideoId): (r: Result<seq<CommentDto>>)
    ensures r.Err? <==> videoId !in videos
    ensures r.Err? ==> r.error == VideoNotFound(videoId)
    ensures r.Ok? ==>
      && |r.value| == |videos[videoId].commentList|
      && forall i :: 0 <= i < |r.value| ==>
           r.value[i].commentText == videos[videoId].commentList[i].text
           && r.value[i].authorId == videos[videoId].commentList[i].authorId
  {
    match GetVideoById(videos, videoId)
    case Err(e) => Err(e)
    case Ok(v) => Ok(seq(|v.commentList|, i requires 0 <= i < |v.commentList| => MapToCommentDto(v.commentList[i])))
  }

  /** `getAllVideos`: one reply per stored document; the database's order is not modelled. */
  function GetAllVideos(videos: Catalog): (r: set<VideoDto>)
    ensures forall id :: id in videos ==> MapToVideoDto(id, videos[id]) in r
    ensures forall d :: d in r ==> d.id in videos && d == MapToVideoDto(d.id, videos[d.id])
  {
    set id | id in videos :: MapToVideoDto(id, videos[id])
  }

  /** A comment survives the trip through its transfer object, and back. */
  lemma CommentRoundTrip(c: Comment, dto: CommentDto)
    ensures ToComment(MapToCommentDto(c)) == c
    ensures MapToCommentDto(ToComment(dto)) == dto
  {
  }

  /** `addComment` then `getAllComments` reads back the earlier comments followed by the new one. */
  lemma AddThenGetComments(videos: Catalog, videoId: VideoId, dto: CommentDto)
    requires videoId in videos
    ensures var added := AddComment(videos, videoId, dto);
      added.Ok? && GetAllComments(added.value, videoId) == Ok(GetAllComments(videos, videoId).value + [dto])
  {
    var before := GetAllComments(videos, videoId).value;
    var after := GetAllComments(AddComment(videos, videoId, dto).value, videoId).value;
    assert after == before + [dto];
  }

  /**
   `editVideo` then `getVideoDetails` reports the five edited fields as sent,
   and a view count one above what it was before the edit.
   */
  lemma EditThenDetails(videos: Catalog, user: User, dto: VideoDto)
    requires dto.id in videos
    ensures var edited := EditVideo(videos, dto);
      && edited.Ok?
      && var shown := GetVideoDetails(edited.value.videos, user, dto.id);
      && shown.Ok?
      && shown.value.dto.title == dto.title && shown.value.dto.description == dto.description
      && shown.value.dto.tags == dto.tags && shown.value.dto.thumbnailUrl == dto.thumbnailUrl
      && shown.value.dto.videoStatus == dto.videoStatus
      && shown.value.dto.viewCount == videos[dto.id].viewCount + 1
  {
  }

  /** `getAllVideos` answers with one reply per stored document: distinct documents give distinct replies. */
  lemma {:induction false} GetAllVideosOnePerDocument(videos: Catalog)
    ensures |GetAllVideos(videos)| == |videos|
    decreases |videos|
  {
    if videos != map[] {
      var k :| k in videos;
      var rest := videos - {k};
      var d := MapToVideoDto(k, videos[k]);
      GetAllVideosOnePerDocument(rest);
      forall x | x in GetAllVideos(videos) ensures x in GetAllVideos(rest) + {d} {
        if x.id != k {
          assert x.id in rest && rest[x.id] == videos[x.id];
        }
      }
      forall x | x in GetAllVideos(rest) + {d} ensures x in GetAllVideos(videos) {
        if x != d {
          assert x.id in videos && rest[x.id] == videos[x.id];
        }
      }
      assert GetAllVideos(videos) == GetAllVideos(rest) + {d};
      assert d !in GetAllVideos(rest);
      assert |rest| == |videos| - 1 by {
        assert rest.Keys == videos.Keys - {k};
      }
    }
  }

  /** After an upload the listing holds a reply for the new video: its id, its URL and zero counts. */
  lemma UploadThenListed(videos: Catalog, store: Store, newId: VideoId, videoUrl: Url)
    requires newId !in videos
    ensures exists d :: (d in GetAllVideos(UploadVideo(videos, store, newId, videoUrl).videos)
      && d.id == newId && d.videoUrl == videoUrl
      && d.likeCount == 0 && d.dislikeCount == 0 && d.viewCount == 0)
  {
    var after := UploadVideo(videos, store, newId, videoUrl).videos;
    assert MapToVideoDto(newId, after[newId]) in GetAllVideos(after);
  }

  /**
   The reply of a like, a dislike or a view reports the document as saved:
   its id, its URL and its three counters.
   */
  lemma RepliesReportSavedDocument(videos: Catalog, user: User, videoId: VideoId)
    requires videoId in videos
    ensures forall r :: r in {LikeVideo(videos, user, videoId), DisLikeVideo(videos, user, videoId), GetVideoDetails(videos, user, videoId)} ==>
      && r.Ok?
      && var saved := r.value.videos[videoId];
      && r.value.dto.id == videoId && r.value.dto.videoUrl == videos[videoId].videoUrl
      && r.value.dto.likeCount == saved.likes && r.value.dto.dislikeCount == saved.disLikes
      && r.value.dto.viewCount == saved.viewCount
  {
  }
}
